=== FILE: README.md ===
# sphinx-gherkindoc: directory contraction and document helpers, in Dafny

sphinx-gherkindoc turns a tree of Gherkin `.feature` files into Sphinx
reStructuredText. This project models two parts of it.

- **The directory-contraction loop of `process_args`.** The tree scanner
  produces a list of work units, one per directory. The model assumes nothing
  about the order of that list. The loop pops the units from the end. For each
  unit it keeps the subdirectories already recorded as non-empty. It skips a
  directory that has no files and no kept subdirectory, and otherwise records
  it as non-empty. Outside a dry run it then writes a table of contents (TOC)
  for the directory. The last unit popped, which is the first unit of the
  list, gets the top-level TOC name. Every other directory gets its flat
  `-toc` name. Each feature file is converted, each other non-rST file is
  copied, and the remaining rST files are left alone. The optional step-glossary branch runs after
  the loop.
- **The helpers in `utils.py` that the loop and the document builders rely
  on.**
  - `make_flat_name`, the period-joined flat file names.
  - `rst_escape` and its two translation tables.
  - `role_name_from`, `apply_role` and the `AVAILABLE_ROLES` list.
  - The text-accumulating part of `SphinxWriter`: `add_output`,
    `blank_line` and `create_section`.

The model has one module per concern:

| module | file | models |
|---|---|---|
| `Options` | options.dfy | Python's `None`-or-value |
| `Text` | text.dfy | `".".join`, `str.split`, `str * n`, `str.rstrip` |
| `FlatNames` | flat_names.dfy | `make_flat_name` |
| `Escaping` | escaping.dfy | `_escape_mappings`, `_advanced_escape_mappings`, `rst_escape` |
| `Roles` | roles.dfy | `AVAILABLE_ROLES`, `role_name_from`, `apply_role` |
| `SphinxWriters` | sphinx_writer.dfy | `SphinxWriter.sections`, `add_output`, `blank_line`, `create_section`, and the `"".join(self._output)` text of `write_to_file` |
| `Contraction` | contraction.dfy | `process_args` |
| `Example` | example.dfy | a three-directory run worked through by the verifier |

File-system effects are modelled as values:
- A path is a sequence of segments.
- Writing a TOC, converting a feature file, copying a file and writing the
  glossary are `Action` records, appended in the order the code performs them.
- The scanner's output is the input list of `WorkUnit`s.
- `root_path` is the input `Config.rootPath`. The `os.path.dirname` and
  `os.path.abspath` calls that compute it are not modelled.
- `is_feature_file` and `is_rst_file` are predicates passed in as `FileKinds`.
- The result of `make_steps_glossary` is an `Option<Writer>` argument.

The loop exists twice:
- `Contraction.Drain`, a recursive function that defines it;
- `Contraction.RunProcessArgs`, the `while` loop as written, with its inner
  `for` loops (`KeepSubdirs`, `EmitFiles`). It is proved equal to `Drain`.

Two consequences of the code are worth stating:
- **A pruned last unit gets no top-level TOC.** The `continue` at
  cli.py:42-43 runs before the write at cli.py:60. So when the last unit
  popped has no files and no kept subdirectory, no file is written under the
  top-level TOC name. `Contraction.TopLevelTocIffRootKept` proves that the
  top-level TOC is written exactly when that unit is kept.
- **Converted names keep the whole file name.** cli.py:63 builds
  `a_file_list` from `a_dir_list + [a_file]`, and cli.py:68 flattens that
  list. The extension is kept, as in `root.A.feature1.feature-file.rst`.
  Because file names may contain periods, two files in different directories
  can get the same name (`Contraction.ConvertedNamesCollideAcrossDirs`).

## Model

| member | source | states |
|---|---|---|
| FlatNames.MakeFlatName | sphinx_gherkindoc/utils.py:101-125 | The result starts with the path (plus the optional root) joined by periods. Without an extension it is exactly that join. With one it is the join, then the `-toc`/`-file` marker, then the extension at the very end. |
| FlatNames.FilenameRootIsAppend | sphinx_gherkindoc/utils.py:120-121 | Passing `filename_root` is the same as appending it to `path_list`. |
| FlatNames.BareNameIgnoresIsDir | sphinx_gherkindoc/utils.py:122-124 | With `ext=None` the `is_dir` flag has no effect. Splitting the bare name of a non-empty path on periods gives back the path when no segment contains a period. |
| FlatNames.ChildName | sphinx_gherkindoc/utils.py:122 | The bare name of a child of a non-empty path is the parent's bare name, a period, then the child's segment. |
| FlatNames.TocNeverFileName | sphinx_gherkindoc/utils.py:125 | For the same extension, a `-toc` name never equals a `-file` name, whatever the paths. |
| FlatNames.FlatNameInjective | sphinx_gherkindoc/utils.py:122-125 | For non-empty paths with no period in any segment, equal flat names mean equal paths and equal `is_dir`. |
| FlatNames.BareNameInjective | sphinx_gherkindoc/utils.py:122-124 | For non-empty paths with no period in any segment, equal bare names mean equal paths. |
| FlatNames.DottedSegmentsCollide | sphinx_gherkindoc/utils.py:122 | A segment containing a period collides with the split path: `["a.b"]` and `["a","b"]` flatten to the same name. |
| FlatNames.NamingExamples | sphinx_gherkindoc/utils.py:120-125 | Concrete names: `a.b-toc.rst`, `a.b-file.rst`, and `a.x.feature` for a root with no extension. |
| Text.Join | sphinx_gherkindoc/utils.py:122 | A join of at least one part starts with the first part. |
| Text.SplitJoin | sphinx_gherkindoc/utils.py:122 | `str.split` inverts `".".join` for a non-empty list whose items contain no period. |
| Text.Repeat | sphinx_gherkindoc/utils.py:144 | Python's `s * n`: empty for `n <= 0`, otherwise `n` times the length of `s`; a one-character string repeats that character. |
| Text.RepeatCopies | sphinx_gherkindoc/utils.py:144 | For `n >= 1`, `s * n` starts with `s`, and every later character equals the one a copy's length earlier, so it is `n` copies of `s`. |
| Text.RStrip | sphinx_gherkindoc/utils.py:160 | `rstrip()` gives a prefix that does not end in whitespace, and everything removed is whitespace. |
| Escaping.EscapeTables | sphinx_gherkindoc/utils.py:78-81 | The plain table maps each of `* " # : < >` to a backslash plus itself and leaves every other character alone. The advanced table also maps a backslash to three backslashes. |
| Escaping.Translate | sphinx_gherkindoc/utils.py:96-98 | A string none of whose characters has a table entry is returned unchanged. With no empty entry in the table, the result is never shorter than the input. |
| Escaping.TranslateAppend | sphinx_gherkindoc/utils.py:96-98 | `str.translate` works character by character: translating a concatenation concatenates the translations. |
| Escaping.RstEscape | sphinx_gherkindoc/utils.py:84-98 | Escaping adds one character per special character, plus two per backslash when `slash_escape` is set. |
| Escaping.RstEscapeUnchangedIff | sphinx_gherkindoc/utils.py:84-98 | Plain escaping leaves a string unchanged if and only if it contains none of the six special characters. |
| Escaping.FirstNotSpecial | sphinx_gherkindoc/utils.py:79 | A non-empty plain-escaped string never starts with a special character. |
| Escaping.RstEscapeRoundTrip | sphinx_gherkindoc/utils.py:79-98 | Plain escaping is undone by an independent unescaper: every input comes back unchanged. |
| Escaping.RstEscapeSlashRoundTrip | sphinx_gherkindoc/utils.py:79-98 | Escaping with `slash_escape` is undone by an unescaper that also collapses triple backslashes. |
| Escaping.RstEscapeInjective | sphinx_gherkindoc/utils.py:84-98 | Under either table, distinct inputs escape to distinct outputs. |
| Escaping.SlashEscapeOnlyTouchesBackslashes | sphinx_gherkindoc/utils.py:80-81 | On a string without a backslash, the two tables give the same result. |
| Roles.ExtendRoles | sphinx_gherkindoc/utils.py:43-44 | The loop adds exactly two roles per keyword. |
| Roles.ExtendRolesLayout | sphinx_gherkindoc/utils.py:43-44 | Extending keeps the base roles as a prefix, then adds, for each keyword in order, its `-keyword` role and then its `-content` role. |
| Roles.ExtendRolesMembership | sphinx_gherkindoc/utils.py:43-44 | A role is in the extended list if and only if it is a base role or the keyword/content role of a listed keyword. |
| Roles.AvailableRoles | sphinx_gherkindoc/utils.py:37-44 | `AVAILABLE_ROLES` starts with the four base roles. Then, for each keyword in `_keywords` order, it lists `gherkin-<keyword>-keyword` followed by `gherkin-<keyword>-content`. |
| Roles.AvailableRolesMembership | sphinx_gherkindoc/utils.py:27-44 | `AVAILABLE_ROLES` has 16 entries: the four base roles and the two roles of each of the six keywords, and nothing else. |
| Roles.AvailableRolesAreRoleNames | sphinx_gherkindoc/utils.py:37-49 | Every available role is already in role-name form: `role_name_from` leaves it unchanged. |
| Roles.RoleNameFrom | sphinx_gherkindoc/utils.py:47-49 | The result has the input's length, spaces become hyphens, and other characters are lower-cased position by position. The result is a role name: no space and no upper-case letter. |
| Roles.RoleNameFromFixedIff | sphinx_gherkindoc/utils.py:47-49 | A string is left unchanged if and only if it is a role name: no space and no upper-case letter. |
| Roles.RoleNameFromIdempotent | sphinx_gherkindoc/utils.py:47-49 | Applying the conversion twice is the same as applying it once. |
| Roles.ApplyRole | sphinx_gherkindoc/utils.py:52-54 | The result is `:`, the role, `:`, a backquote, the content and a closing backquote, at the stated positions. |
| Roles.ParseApplyRole | sphinx_gherkindoc/utils.py:52-54 | For a role without a colon, parsing the wrapped text gives back the role and the content. |
| Roles.ApplyParseRole | sphinx_gherkindoc/utils.py:52-54 | Every string the parser accepts is exactly the wrapping of what it returns. |
| SphinxWriters.Contents | sphinx_gherkindoc/utils.py:172 | The written text starts with the first piece. It is empty if and only if every piece is empty. |
| SphinxWriters.ContentsAppend | sphinx_gherkindoc/utils.py:172 | Appending a piece to the output appends exactly that piece to the written text. |
| SphinxWriters.AddOutput | sphinx_gherkindoc/utils.py:136-145 | One piece is appended and earlier pieces are kept. The piece is `indent_by` spaces, the line, then `line_breaks` newlines, with negative counts acting as zero. |
| SphinxWriters.AddOutputContents | sphinx_gherkindoc/utils.py:145 | The document text grows by exactly the appended piece. |
| SphinxWriters.BlankLine | sphinx_gherkindoc/utils.py:147-149 | A blank line appends the single piece `"\n"`, so the text grows by one newline. |
| SphinxWriters.PyIndex | sphinx_gherkindoc/utils.py:160 | Python list indexing: defined exactly for `-len <= i < len`, with negative positions counting from the end. |
| SphinxWriters.CreateSection | sphinx_gherkindoc/utils.py:151-160 | The title piece is always added first. The header completes if and only if the level indexes `sections`. Any other level is an `IndexError`, raised after the title piece has been added. |
| SphinxWriters.CreateSectionUnderline | sphinx_gherkindoc/utils.py:131-160 | For a valid level (negative ones wrap), the underline is that level's character repeated to the length of the title without trailing whitespace, then two newlines. Level 0 gives an empty underline. |
| SphinxWriters.CreateSectionExample | sphinx_gherkindoc/utils.py:151-172 | On a fresh writer, a level-1 section titled `"Ab "` gives the pieces `"Ab \n"` and `"==\n\n"`. The underline ignores the trailing space, and the text is `"Ab \n==\n\n"`. |
| SphinxWriters.SectionsShape | sphinx_gherkindoc/utils.py:131 | There are 11 levels. Level 0 has an empty underline string and every other level a single character. |
| Contraction.RetainedSubdirs | sphinx_gherkindoc/cli.py:36-40 | A subdirectory is kept if and only if it is listed and its full path is already recorded as non-empty. The kept ones stay in their original order. |
| Contraction.RetainedSubdirsCounts | sphinx_gherkindoc/cli.py:36-40 | Every occurrence of a recorded subdirectory is kept and every other one dropped, counting duplicates. |
| Contraction.Pruned | sphinx_gherkindoc/cli.py:36-43 | A unit is skipped if and only if it has no files and none of its subdirectories is recorded as non-empty. |
| Contraction.TopLevelToc | sphinx_gherkindoc/cli.py:30 | The top-level TOC path is the TOC name plus `.rst`, directly inside the output directory. |
| Contraction.TocDest | sphinx_gherkindoc/cli.py:54-59 | The last unit writes to the top-level TOC path. Any other unit writes, directly inside the output directory, to the directory's flat name with the `-toc` marker and `.rst`. |
| Contraction.CopyDest | sphinx_gherkindoc/cli.py:73-76 | A copied file goes directly inside the output directory. Its name is the file name itself at the top level. Otherwise it is the directory's bare flat name, a period, then the file name. |
| Contraction.ConvertDest | sphinx_gherkindoc/cli.py:66-69 | A converted file goes directly inside the output directory, under its copy name followed by `-file.rst`. |
| Contraction.FileAction | sphinx_gherkindoc/cli.py:62-78 | Each file gives at most one action, and none exactly for an rST file that is not a feature file. The action reads from the file's path under the root, and it is a conversion if and only if the file is a feature file. A conversion writes to the converted name and a copy to the copied name. |
| Contraction.FileActions | sphinx_gherkindoc/cli.py:62-78 | A directory's files give at most one action each, and none of them writes a TOC or the glossary. |
| Contraction.FileActionsCount | sphinx_gherkindoc/cli.py:62-78 | When no file is an rST file that is not a feature file, every file gets exactly one action. |
| Contraction.FileActionsSources | sphinx_gherkindoc/cli.py:62-65 | Every per-file action reads a file directly inside the directory being visited, under the root path. |
| Contraction.FileActionsAppend | sphinx_gherkindoc/cli.py:62-78 | The actions for two runs of files are the actions for the first followed by those for the second. |
| Contraction.RstOnlyFilesEmitNothing | sphinx_gherkindoc/cli.py:66-73 | A directory holding only rST files produces no per-file action. |
| Contraction.DestinationsDistinct | sphinx_gherkindoc/cli.py:57-76 | Within one directory with a non-empty path, distinct files get distinct converted names and distinct copied names, and the directory's `-toc` name differs from all of them. Across directories names can collide; see the next row. |
| Contraction.ConvertedNamesCollideAcrossDirs | sphinx_gherkindoc/cli.py:63-69 | `a/b.x.feature` and `a/b/x.feature` are converted to the same destination, because file names may contain periods. |
| Contraction.Step | sphinx_gherkindoc/cli.py:35-78 | A skipped unit changes nothing. Otherwise its directory is recorded. Earlier actions are kept, and a dry run adds none. In a real run, the new actions are exactly the unit's TOC write, listing the kept subdirectories, followed by the unit's per-file actions. |
| Contraction.StepMark | sphinx_gherkindoc/cli.py:42-45 | Each step records exactly the reference membership for its unit. |
| Contraction.StepNotLastNoTopToc | sphinx_gherkindoc/cli.py:54-59 | A unit that is not the last one popped never writes the top-level TOC, given a TOC name that does not end in `-toc`. |
| Contraction.FlatTocIsNotTop | sphinx_gherkindoc/cli.py:30 | Given a TOC name that does not end in `-toc`, a directory's flat TOC destination never equals the top-level TOC path. |
| Contraction.Drain | sphinx_gherkindoc/cli.py:32-78 | Membership only grows, and only by directories of the work list. The loop keeps earlier actions and adds no action in a dry run. |
| Contraction.DrainPop | sphinx_gherkindoc/cli.py:34-35 | The unit at the end of the list is processed first, and it counts as the last unit exactly when it is alone. |
| Contraction.DrainMembership | sphinx_gherkindoc/cli.py:34-45 | The loop's `non_empty_dirs` equals a reference membership computed from files and subdirectories alone, whatever the configuration or file kinds. |
| Contraction.LastStepTopToc | sphinx_gherkindoc/cli.py:42-60 | In a real run, the last unit popped writes the top-level TOC if and only if it is not skipped. |
| Contraction.TopLevelTocIffRootKept | sphinx_gherkindoc/cli.py:42-60 | In a real run, some new action writes the top-level TOC if and only if the first unit of the list, popped last, is not skipped, given the membership the other units record. |
| Contraction.GlossaryActions | sphinx_gherkindoc/cli.py:80-95 | The glossary is written, to the output directory under `<name>.rst`, exactly when the name is non-empty, the run is not a dry run and the builder returned a document. |
| Contraction.ProcessArgs | sphinx_gherkindoc/cli.py:20-95 | Only scanned directories are recorded, and a dry run performs no action at all. |
| Contraction.DryRunEquivalence | sphinx_gherkindoc/cli.py:45-48 | A dry run records the same non-empty directories as a real run and performs no action. |
| Contraction.KeepSubdirs | sphinx_gherkindoc/cli.py:36-40 | The `for subdir in subdirs` loop computes exactly the retained subdirectories. |
| Contraction.EmitFiles | sphinx_gherkindoc/cli.py:62-78 | The `for a_file in files` loop, whose body is the helper method `EmitFile`, emits exactly the per-file actions. |
| Contraction.RunProcessArgs | sphinx_gherkindoc/cli.py:20-95 | The `while` loop with its `continue`s and early returns yields the same membership and actions as `ProcessArgs`. Its membership is the reference membership. |
| Example.ExampleRun | sphinx_gherkindoc/cli.py:34-78 | Tree `root/{A/feature1.feature, B/}`, where `root` holds `readme.rst`. B is pruned, A gets `root.A-toc.rst` and a conversion to `root.A.feature1.feature-file.rst`. The root writes `gherkin.rst` listing only A, and nothing happens for `readme.rst`. |

## Left out

- `main`, `config` and argument parsing: the model starts from a parsed configuration (`Contraction.Config`).
- `scan_tree`, `toctree`, `feature_to_rst`, `make_steps_glossary`, `is_feature_file` and `is_rst_file` are not part of this model. The scan result, the file-kind predicates and the glossary document are inputs, and the TOC and conversion are action records.
- `write_to_file`, `FileAvoidWrite` and `shutil.copy` perform file I/O. They are represented by the `Action` records, and `SphinxWriters.Contents` gives the text a write would produce.
- `make_steps_glossary` is called even in a dry run, before the dry-run test. Its side effects are outside the model; only its result is used.
- `verbose`, `set_dry_run`, `set_verbose` and the `DRY_RUN`/`VERBOSE` globals: logging is not modelled, and dry-run is the `dryRun` field of the configuration.
- The "No steps to include in the glossary" message printed when the glossary builder returns `None`: console output is not modelled.
- `display_name`, `INDENT_DEPTH`, `MAIN_STEP_KEYWORDS` and `QUOTE` are not used by the modelled code.
- `os.path.join` is modelled as sequence concatenation. An absolute second component, or a separator inside `toc_name` or inside a file name, is not modelled.
- `os.path.dirname` and `os.path.abspath` are not modelled: `root_path` is the input `Config.rootPath`.
- `toctree`, `write_to_file`, `feature_to_rst` and `shutil.copy` can raise. A real run that raises performs only a prefix of the modelled actions, and the model does not represent that failure.
- Contraction.TopLevelToc: treats `toc_name` as a single path segment, because path-separator handling is not modelled.
- Contraction.TopLevelTocIffRootKept: assumes a TOC name that does not end in `-toc`. With such a name, a directory's flat TOC could share the top-level path when the output directory is the same.
- Roles.RoleNameFrom: lower-cases only the ASCII letters `A`–`Z`, because full Unicode `str.lower` (including the characters whose lower case is longer than one character) is outside the model.
- Text.RStrip: whitespace is Python's `str.isspace` set for the Basic Multilingual Plane, listed explicitly. Characters outside that plane are treated as non-space.
- Roles.ParseApplyRole: needs a role without a colon, because a colon inside the role makes the wrapped text ambiguous to parse.

=== FILE: contraction.dfy ===
/**
 * The directory-contraction loop of `process_args`: work units are popped from
 * the end of the scanner's list; a directory is kept when it has files or a
 * subdirectory already kept; for each kept directory a table of contents is
 * written and every feature file is converted and every other non-rST file copied.
 * File effects are represented by the ordered list of actions they would perform.
 */
module Contraction {
  import opened Options
  import FlatNames
  import SphinxWriters
  import Text

  /** A filesystem path as its list of segments; `os.path.join(a, b)` is `a + [b]`. */
  type Path = seq<string>

  /** One scanned directory: its path, its segments for naming, its subdirectory and file names. */
  datatype WorkUnit = WorkUnit(dir: Path, dirList: seq<string>, subdirs: seq<string>, files: seq<string>)

  /** `is_feature_file` and `is_rst_file`, which decide on a bare file name. */
  datatype FileKinds = FileKinds(isFeature: string -> bool, isRst: string -> bool)

  /** The parsed arguments `process_args` reads. */
  datatype Config = Config(
    outputPath: Path,
    rootPath: Path,
    tocName: string,
    maxTocDepth: int,
    dryRun: bool,
    stepGlossaryName: Option<string>)

  /** The file effects of a run, in the order they happen. */
  datatype Action =
    | WriteToc(dest: Path, dirList: seq<string>, subdirs: seq<string>, files: seq<string>, maxDepth: int)
    | Convert(src: Path, dest: Path)
    | Copy(src: Path, dest: Path)
    | WriteGlossary(dest: Path, doc: SphinxWriters.Writer)

  /** `non_empty_dirs` and the actions performed so far. */
  datatype State = State(nonEmpty: set<Path>, actions: seq<Action>)

  const Initial: State := State({}, [])

  /** `b` keeps the elements of `a` in order, possibly with others in between. */
  predicate IsSubsequence(a: seq<string>, b: seq<string>)
    decreases |b|
  {
    |a| == 0 || (|b| > 0 && ((a[0] == b[0] && IsSubsequence(a[1..], b[1..])) || IsSubsequence(a, b[1..])))
  }

  lemma {:induction false} SubsequenceAppend(a: seq<string>, b: seq<string>, x: string)
    requires IsSubsequence(a, b)
    ensures IsSubsequence(a, b + [x]) && IsSubsequence(a + [x], b + [x])
    decreases |b|
  {
    if |b| == 0 {
      assert a == [];
      assert IsSubsequence([], [x]);
      assert IsSubsequence([x], [x]) by { assert [x][1..] == []; }
    } else {
      assert (b + [x])[1..] == b[1..] + [x];
      if |a| > 0 && a[0] == b[0] && IsSubsequence(a[1..], b[1..]) {
        SubsequenceAppend(a[1..], b[1..], x);
        assert (a + [x])[1..] == a[1..] + [x];
      } else if |a| > 0 {
        SubsequenceAppend(a, b[1..], x);
      } else {
        SubsequenceAppend(a, b[1..], x);
        assert [x][1..] == [];
        assert a + [x] == [x];
        assert IsSubsequence([x], b[1..] + [x]);
      }
    }
  }

  /** The subdirectories of `dir` already recorded as non-empty, in their original order. */
  function RetainedSubdirs(dir: Path, subdirs: seq<string>, nonEmpty: set<Path>): (r: seq<string>)
    ensures forall s :: s in r <==> s in subdirs && dir + [s] in nonEmpty
    ensures IsSubsequence(r, subdirs)
    decreases |subdirs|
  {
    if |subdirs| == 0 then []
    else
      var init := subdirs[..|subdirs| - 1];
      var last := subdirs[|subdirs| - 1];
      assert subdirs == init + [last];
      var kept := RetainedSubdirs(dir, init, nonEmpty);
      SubsequenceAppend(kept, init, last);
      if dir + [last] in nonEmpty then kept + [last] else kept
  }

  /** Each recorded subdirectory keeps all its occurrences and every other one is dropped. */
  lemma {:induction false} RetainedSubdirsCounts(dir: Path, subdirs: seq<string>, nonEmpty: set<Path>, s: string)
    ensures multiset(RetainedSubdirs(dir, subdirs, nonEmpty))[s] == if dir + [s] in nonEmpty then multiset(subdirs)[s] else 0
    decreases |subdirs|
  {
    if |subdirs| > 0 {
      var init := subdirs[..|subdirs| - 1];
      var last := subdirs[|subdirs| - 1];
      assert subdirs == init + [last];
      RetainedSubdirsCounts(dir, init, nonEmpty, s);
    }
  }

  /**
   * The skip test of the loop, `not (files or new_subdirs)`: a unit is skipped
   * exactly when it has no files and none of its subdirectories is recorded.
   */
  function Pruned(nonEmpty: set<Path>, u: WorkUnit): (r: bool)
    ensures r <==> u.files == [] && forall s :: s in u.subdirs ==> u.dir + [s] !in nonEmpty
  {
    var kept := RetainedSubdirs(u.dir, u.subdirs, nonEmpty);
    assert |kept| > 0 ==> kept[0] in kept;
    |u.files| == 0 && |kept| == 0
  }

  /** `top_level_toc_filename`: the TOC name with `.rst` appended, directly inside the output directory. */
  function TopLevelToc(cfg: Config): (p: Path)
    ensures |p| == |cfg.outputPath| + 1 && p[..|cfg.outputPath|] == cfg.outputPath
    ensures p[|cfg.outputPath|] == cfg.tocName + FlatNames.DefaultExt
  {
    cfg.outputPath + [cfg.tocName + FlatNames.DefaultExt]
  }

  /** The TOC destination: the top-level name for the last unit, otherwise the directory's flat `-toc` name. */
  function TocDest(cfg: Config, dirList: seq<string>, isLast: bool): (p: Path)
    ensures isLast ==> p == TopLevelToc(cfg)
    ensures !isLast ==> p == cfg.outputPath + [FlatNames.MakeFlatName(dirList, None, true, Some(FlatNames.DefaultExt))]
  {
    if isLast then TopLevelToc(cfg)
    else cfg.outputPath + [FlatNames.MakeFlatName(dirList, None, true, Some(FlatNames.DefaultExt))]
  }

  /**
   * Where a non-rST, non-feature file is copied: inside the output directory,
   * under its directory's bare flat name, a period and the file's own name.
   */
  function CopyDest(cfg: Config, dirList: seq<string>, f: string): (p: Path)
    ensures |p| == |cfg.outputPath| + 1 && p[..|cfg.outputPath|] == cfg.outputPath
    ensures |dirList| == 0 ==> p[|cfg.outputPath|] == f
    ensures |dirList| >= 1 ==>
              p[|cfg.outputPath|] == FlatNames.MakeFlatName(dirList, None, false, None) + [FlatNames.Separator] + f
  {
    var dest := cfg.outputPath + [FlatNames.MakeFlatName(dirList + [f], None, false, None)];
    if |dirList| >= 1 then FlatNames.ChildName(dirList, f); dest
    else assert dirList + [f] == [f]; dest
  }

  /** Where a feature file is converted to: its copy name followed by `-file.rst`. */
  function ConvertDest(cfg: Config, dirList: seq<string>, f: string): (p: Path)
    ensures |p| == |cfg.outputPath| + 1 && p[..|cfg.outputPath|] == cfg.outputPath
    ensures p[|cfg.outputPath|] == CopyDest(cfg, dirList, f)[|cfg.outputPath|] + "-file.rst"
  {
    var bare := FlatNames.MakeFlatName(dirList + [f], None, false, None);
    var name := FlatNames.MakeFlatName(dirList + [f], None, false, Some(FlatNames.DefaultExt));
    assert name == bare + "-file" + ".rst";
    cfg.outputPath + [name]
  }

  /** The action for one file: convert a feature file, copy a non-rST file, nothing for an rST file. */
  function FileAction(cfg: Config, kinds: FileKinds, dirList: seq<string>, f: string): (r: seq<Action>)
    ensures |r| <= 1
    ensures |r| == 0 <==> !kinds.isFeature(f) && kinds.isRst(f)
    ensures |r| == 1 ==> !r[0].WriteToc? && !r[0].WriteGlossary? && r[0].src == cfg.rootPath + dirList + [f]
    ensures |r| == 1 ==> (r[0].Convert? <==> kinds.isFeature(f))
    ensures |r| == 1 ==> r[0].dest == if kinds.isFeature(f) then ConvertDest(cfg, dirList, f) else CopyDest(cfg, dirList, f)
  {
    var src := cfg.rootPath + (dirList + [f]);
    assert src == cfg.rootPath + dirList + [f];
    if kinds.isFeature(f) then [Convert(src, ConvertDest(cfg, dirList, f))]
    else if !kinds.isRst(f) then [Copy(src, CopyDest(cfg, dirList, f))]
    else []
  }

  /** The actions for the files of one directory, in the order of `files`. */
  function FileActions(cfg: Config, kinds: FileKinds, dirList: seq<string>, files: seq<string>): (r: seq<Action>)
    ensures |r| <= |files|
    ensures forall i :: 0 <= i < |r| ==> !r[i].WriteToc? && !r[i].WriteGlossary?
    decreases |files|
  {
    if |files| == 0 then []
    else FileActions(cfg, kinds, dirList, files[..|files| - 1]) + FileAction(cfg, kinds, dirList, files[|files| - 1])
  }

  /** Without reST files to skip, every file gets exactly one action. */
  lemma {:induction false} FileActionsCount(cfg: Config, kinds: FileKinds, dirList: seq<string>, files: seq<string>)
    requires forall i :: 0 <= i < |files| ==> kinds.isFeature(files[i]) || !kinds.isRst(files[i])
    ensures |FileActions(cfg, kinds, dirList, files)| == |files|
    decreases |files|
  {
    if |files| > 0 {
      FileActionsCount(cfg, kinds, dirList, files[..|files| - 1]);
    }
  }

  /** Every per-file action reads a file directly inside the directory being visited. */
  lemma {:induction false} FileActionsSources(cfg: Config, kinds: FileKinds, dirList: seq<string>, files: seq<string>)
    ensures var r := FileActions(cfg, kinds, dirList, files);
            forall i :: 0 <= i < |r| ==>
              |r[i].src| == |cfg.rootPath| + |dirList| + 1 && r[i].src[..|cfg.rootPath| + |dirList|] == cfg.rootPath + dirList
    decreases |files|
  {
    if |files| > 0 {
      var init := files[..|files| - 1];
      var f := files[|files| - 1];
      FileActionsSources(cfg, kinds, dirList, init);
      var a := FileActions(cfg, kinds, dirList, init);
      var b := FileAction(cfg, kinds, dirList, f);
      assert files == init + [f];
      FileActionsSnoc(cfg, kinds, dirList, init, f);
      var k := |cfg.rootPath| + |dirList|;
      var ab: seq<Action> := a + b;
      forall i | 0 <= i < |ab|
        ensures |ab[i].src| == k + 1 && ab[i].src[..k] == cfg.rootPath + dirList
      {
        if i >= |a| {
          assert ab[i] == b[0];
          assert b[0].src == cfg.rootPath + dirList + [f];
        }
      }
      assert FileActions(cfg, kinds, dirList, files) == ab;
    }
  }

  /** One more file appends its own action. */
  lemma FileActionsSnoc(cfg: Config, kinds: FileKinds, dirList: seq<string>, files: seq<string>, f: string)
    ensures FileActions(cfg, kinds, dirList, files + [f])
            == FileActions(cfg, kinds, dirList, files) + FileAction(cfg, kinds, dirList, f)
  {
    assert (files + [f])[..|files|] == files;
  }

  /** The actions of a longer prefix of `files` extend those of the shorter one by one file. */
  lemma FileActionsPrefix(cfg: Config, kinds: FileKinds, dirList: seq<string>, files: seq<string>, j: nat)
    requires j < |files|
    ensures FileActions(cfg, kinds, dirList, files[..j + 1])
            == FileActions(cfg, kinds, dirList, files[..j]) + FileAction(cfg, kinds, dirList, files[j])
  {
    assert files[..j + 1][..j] == files[..j];
  }

  /** Per-file actions compose: the actions of `a + b` are those of `a` followed by those of `b`. */
  lemma {:induction false} FileActionsAppend(cfg: Config, kinds: FileKinds, dirList: seq<string>, a: seq<string>, b: seq<string>)
    ensures FileActions(cfg, kinds, dirList, a + b) == FileActions(cfg, kinds, dirList, a) + FileActions(cfg, kinds, dirList, b)
    decreases |b|
  {
    if |b| == 0 {
      assert a + b == a;
    } else {
      var b' := b[..|b| - 1];
      assert (a + b)[..|a + b| - 1] == a + b';
      assert (a + b)[|a + b| - 1] == b[|b| - 1];
      FileActionsAppend(cfg, kinds, dirList, a, b');
    }
  }

  /** A directory of rST files only produces no per-file action. */
  lemma {:induction false} RstOnlyFilesEmitNothing(cfg: Config, kinds: FileKinds, dirList: seq<string>, files: seq<string>)
    requires forall i :: 0 <= i < |files| ==> !kinds.isFeature(files[i]) && kinds.isRst(files[i])
    ensures FileActions(cfg, kinds, dirList, files) == []
    decreases |files|
  {
    if |files| > 0 {
      RstOnlyFilesEmitNothing(cfg, kinds, dirList, files[..|files| - 1]);
    }
  }

  /** Processing one popped unit. */
  function Step(cfg: Config, kinds: FileKinds, st: State, u: WorkUnit, isLast: bool): (r: State)
    ensures Pruned(st.nonEmpty, u) ==> r == st
    ensures !Pruned(st.nonEmpty, u) ==> r.nonEmpty == st.nonEmpty + {u.dir}
    ensures |st.actions| <= |r.actions| && r.actions[..|st.actions|] == st.actions
    ensures cfg.dryRun ==> r.actions == st.actions
    ensures !cfg.dryRun && !Pruned(st.nonEmpty, u) ==>
              r.actions
              == st.actions
                 + [WriteToc(TocDest(cfg, u.dirList, isLast), u.dirList, RetainedSubdirs(u.dir, u.subdirs, st.nonEmpty),
                             u.files, cfg.maxTocDepth)]
                 + FileActions(cfg, kinds, u.dirList, u.files)
  {
    var kept := RetainedSubdirs(u.dir, u.subdirs, st.nonEmpty);
    if |u.files| == 0 && |kept| == 0 then st
    else
      var nonEmpty := st.nonEmpty + {u.dir};
      if cfg.dryRun then State(nonEmpty, st.actions)
      else
        var toc := WriteToc(TocDest(cfg, u.dirList, isLast), u.dirList, kept, u.files, cfg.maxTocDepth);
        var actions := st.actions + [toc] + FileActions(cfg, kinds, u.dirList, u.files);
        assert actions[..|st.actions|] == st.actions;
        State(nonEmpty, actions)
  }

  /** The directories of the given units. */
  function Dirs(work: seq<WorkUnit>): set<Path>
  {
    set u | u in work :: u.dir
  }

  /** The `while work_to_do:` loop: pop from the end until the list is empty. */
  function Drain(cfg: Config, kinds: FileKinds, work: seq<WorkUnit>, st: State): (r: State)
    ensures st.nonEmpty <= r.nonEmpty <= st.nonEmpty + Dirs(work)
    ensures |st.actions| <= |r.actions| && r.actions[..|st.actions|] == st.actions
    ensures cfg.dryRun ==> r.actions == st.actions
    decreases |work|
  {
    if |work| == 0 then st
    else
      var rest := work[..|work| - 1];
      var u := work[|work| - 1];
      assert Dirs(work) == Dirs(rest) + {u.dir} by {
        assert work == rest + [u];
      }
      Drain(cfg, kinds, rest, Step(cfg, kinds, st, u, |rest| == 0))
  }

  /** Popping: the last unit of the list is processed first, as the last one exactly when it is alone. */
  lemma DrainPop(cfg: Config, kinds: FileKinds, work: seq<WorkUnit>, u: WorkUnit, st: State)
    ensures Drain(cfg, kinds, work + [u], st) == Drain(cfg, kinds, work, Step(cfg, kinds, st, u, |work| == 0))
  {
    assert (work + [u])[..|work|] == work;
  }

  /** Membership of one unit, independent of naming and of dry-run: the reference for `non_empty_dirs`. */
  function Mark(nonEmpty: set<Path>, u: WorkUnit): set<Path>
  {
    if u.files != [] || exists s :: s in u.subdirs && u.dir + [s] in nonEmpty then nonEmpty + {u.dir} else nonEmpty
  }

  /** `non_empty_dirs` after popping every unit, computed from membership alone. */
  function MarkAll(work: seq<WorkUnit>, nonEmpty: set<Path>): set<Path>
    decreases |work|
  {
    if |work| == 0 then nonEmpty else MarkAll(work[..|work| - 1], Mark(nonEmpty, work[|work| - 1]))
  }

  /** The loop's `non_empty_dirs` is the reference membership, whatever the configuration or file kinds. */
  lemma {:induction false} DrainMembership(cfg: Config, kinds: FileKinds, work: seq<WorkUnit>, st: State)
    ensures Drain(cfg, kinds, work, st).nonEmpty == MarkAll(work, st.nonEmpty)
    decreases |work|
  {
    if |work| > 0 {
      var u := work[|work| - 1];
      var rest := work[..|work| - 1];
      var st' := Step(cfg, kinds, st, u, |rest| == 0);
      assert st'.nonEmpty == Mark(st.nonEmpty, u);
      DrainMembership(cfg, kinds, rest, st');
    }
  }

  /** The glossary step: written only when a non-empty name is given, not in a dry run, and the builder returned a document. */
  function GlossaryActions(cfg: Config, glossary: Option<SphinxWriters.Writer>): (r: seq<Action>)
    ensures |r| <= 1
    ensures |r| == 1 <==>
              cfg.stepGlossaryName.Some? && cfg.stepGlossaryName.value != "" && !cfg.dryRun && glossary.Some?
    ensures |r| == 1 ==>
              r[0] == WriteGlossary(cfg.outputPath + [cfg.stepGlossaryName.value + FlatNames.DefaultExt], glossary.value)
  {
    match cfg.stepGlossaryName
    case None => []
    case Some(name) =>
      if name == "" then []
      else if cfg.dryRun then []
      else match glossary
        case None => []
        case Some(doc) => [WriteGlossary(cfg.outputPath + [name + FlatNames.DefaultExt], doc)]
  }

  /** `process_args`: drain the scanned units, then the glossary step. */
  function ProcessArgs(cfg: Config, kinds: FileKinds, work: seq<WorkUnit>, glossary: Option<SphinxWriters.Writer>): (r: State)
    ensures r.nonEmpty <= Dirs(work)
    ensures cfg.dryRun ==> r.actions == []
  {
    var drained := Drain(cfg, kinds, work, Initial);
    State(drained.nonEmpty, drained.actions + GlossaryActions(cfg, glossary))
  }

  /** A dry run records the same non-empty directories as a real run and performs no action. */
  lemma DryRunEquivalence(cfg: Config, kinds: FileKinds, work: seq<WorkUnit>, glossary: Option<SphinxWriters.Writer>)
    ensures ProcessArgs(cfg.(dryRun := true), kinds, work, glossary).nonEmpty
            == ProcessArgs(cfg.(dryRun := false), kinds, work, glossary).nonEmpty
    ensures ProcessArgs(cfg.(dryRun := true), kinds, work, glossary).actions == []
  {
    DrainMembership(cfg.(dryRun := true), kinds, work, Initial);
    DrainMembership(cfg.(dryRun := false), kinds, work, Initial);
  }

  /** The destinations of one directory never clash: per kind, distinct files get distinct names, and the directory's own `-toc` name differs from every file's. */
  lemma DestinationsDistinct(cfg: Config, dirList: seq<string>, f: string, g: string)
    requires |dirList| >= 1
    ensures f != g ==> ConvertDest(cfg, dirList, f) != ConvertDest(cfg, dirList, g)
    ensures f != g ==> CopyDest(cfg, dirList, f) != CopyDest(cfg, dirList, g)
    ensures TocDest(cfg, dirList, false) != ConvertDest(cfg, dirList, f)
    ensures TocDest(cfg, dirList, false) != CopyDest(cfg, dirList, f)
  {
    var k := |cfg.outputPath|;
    var j := FlatNames.MakeFlatName(dirList, None, false, None);
    var nf := CopyDest(cfg, dirList, f)[k];
    var ng := CopyDest(cfg, dirList, g)[k];
    assert nf == j + [FlatNames.Separator] + f && ng == j + [FlatNames.Separator] + g;
    if f != g {
      assert nf[|j| + 1..] == f && ng[|j| + 1..] == g;
      var cf := ConvertDest(cfg, dirList, f)[k];
      var cg := ConvertDest(cfg, dirList, g)[k];
      assert cf[..|nf|] == nf && cg[..|ng|] == ng;
    }
    var t := TocDest(cfg, dirList, false)[k];
    assert t[..|j|] == j && t[|j|] == '-';
    assert nf[|j|] == '.';
    assert ConvertDest(cfg, dirList, f)[k][|j|] == '.';
  }

  /**
   * Across directories the converted names can clash, since file names contain
   * periods: `a/b.x.feature` and `a/b/x.feature` share one destination.
   */
  lemma ConvertedNamesCollideAcrossDirs(cfg: Config)
    ensures ConvertDest(cfg, ["a"], "b.x.feature") == ConvertDest(cfg, ["a", "b"], "x.feature")
  {
    var p: seq<string> := ["a"];
    var q: seq<string> := ["a", "b"];
    var k := |cfg.outputPath|;
    assert FlatNames.MakeFlatName(p, None, false, None) == "a";
    assert FlatNames.MakeFlatName(q, None, false, None) == "a.b" by {
      assert Text.Join(q, '.') == q[0] + ['.'] + Text.Join(q[1..], '.');
    }
    assert CopyDest(cfg, p, "b.x.feature")[k] == CopyDest(cfg, q, "x.feature")[k];
  }

  /** The flat `-toc` name of a directory is never the top-level TOC name, unless that name itself ends in `-toc`. */
  predicate TocNameUnambiguous(cfg: Config)
  {
    !(|cfg.tocName| >= 4 && cfg.tocName[|cfg.tocName| - 4..] == FlatNames.TocMarker)
  }

  /** `a` writes the top-level TOC file. */
  predicate IsTopToc(cfg: Config, a: Action)
  {
    a.WriteToc? && a.dest == TopLevelToc(cfg)
  }

  /** A directory's flat `-toc` destination differs from the top-level TOC when the TOC name is unambiguous. */
  lemma FlatTocIsNotTop(cfg: Config, dirList: seq<string>)
    requires TocNameUnambiguous(cfg)
    ensures TocDest(cfg, dirList, false) != TopLevelToc(cfg)
  {
    var j := FlatNames.MakeFlatName(dirList, None, false, None);
    var t := FlatNames.MakeFlatName(dirList, None, true, Some(FlatNames.DefaultExt));
    assert t == j + "-toc" + ".rst";
  }

  /** A unit that is not the last one never writes the top-level TOC. */
  lemma StepNotLastNoTopToc(cfg: Config, kinds: FileKinds, st: State, u: WorkUnit)
    requires TocNameUnambiguous(cfg)
    ensures var r := Step(cfg, kinds, st, u, false);
            forall i :: |st.actions| <= i < |r.actions| ==> !IsTopToc(cfg, r.actions[i])
  {
    var r := Step(cfg, kinds, st, u, false);
    if !Pruned(st.nonEmpty, u) && !cfg.dryRun {
      FlatTocIsNotTop(cfg, u.dirList);
      var fa := FileActions(cfg, kinds, u.dirList, u.files);
      assert r.actions == st.actions + [r.actions[|st.actions|]] + fa;
      forall i | |st.actions| < i < |r.actions|
        ensures !IsTopToc(cfg, r.actions[i])
      {
        assert r.actions[i] == fa[i - |st.actions| - 1];
      }
    }
  }

  /** The membership a step records is the reference membership. */
  lemma StepMark(cfg: Config, kinds: FileKinds, st: State, u: WorkUnit, isLast: bool)
    ensures Step(cfg, kinds, st, u, isLast).nonEmpty == Mark(st.nonEmpty, u)
  {
  }

  /** Some action at position `from` or later writes the top-level TOC. */
  predicate HasTopToc(cfg: Config, acts: seq<Action>, from: nat)
  {
    exists i :: from <= i < |acts| && IsTopToc(cfg, acts[i])
  }

  /** Skipping a stretch of actions none of which writes the top-level TOC does not change the answer. */
  lemma HasTopTocSkip(cfg: Config, acts: seq<Action>, from: nat, mid: nat)
    requires from <= mid <= |acts|
    requires forall i :: from <= i < mid ==> !IsTopToc(cfg, acts[i])
    ensures HasTopToc(cfg, acts, from) <==> HasTopToc(cfg, acts, mid)
  {
    if HasTopToc(cfg, acts, from) {
      var i :| from <= i < |acts| && IsTopToc(cfg, acts[i]);
      assert mid <= i;
    }
  }

  /** `MarkAll` takes the last unit first. */
  lemma MarkAllPop(work: seq<WorkUnit>, nonEmpty: set<Path>)
    requires |work| >= 1
    ensures MarkAll(work, nonEmpty) == MarkAll(work[..|work| - 1], Mark(nonEmpty, work[|work| - 1]))
  {
  }

  /** The last unit writes the top-level TOC exactly when it is kept. */
  lemma LastStepTopToc(cfg: Config, kinds: FileKinds, st: State, u: WorkUnit)
    requires !cfg.dryRun
    ensures HasTopToc(cfg, Step(cfg, kinds, st, u, true).actions, |st.actions|) <==> !Pruned(st.nonEmpty, u)
  {
    var r := Step(cfg, kinds, st, u, true);
    if !Pruned(st.nonEmpty, u) {
      assert IsTopToc(cfg, r.actions[|st.actions|]);
    }
  }

  /** The actions of a unit that is not last can be skipped when looking for the top-level TOC later on. */
  lemma SkipStepTopToc(cfg: Config, kinds: FileKinds, rest: seq<WorkUnit>, st: State, u: WorkUnit)
    requires TocNameUnambiguous(cfg)
    ensures var st1 := Step(cfg, kinds, st, u, false);
            var acts := Drain(cfg, kinds, rest, st1).actions;
            |st.actions| <= |st1.actions| <= |acts|
            && (HasTopToc(cfg, acts, |st.actions|) <==> HasTopToc(cfg, acts, |st1.actions|))
  {
    var st1 := Step(cfg, kinds, st, u, false);
    var acts := Drain(cfg, kinds, rest, st1).actions;
    StepNotLastNoTopToc(cfg, kinds, st, u);
    assert acts[..|st1.actions|] == st1.actions;
    forall i | |st.actions| <= i < |st1.actions|
      ensures !IsTopToc(cfg, acts[i])
    {
      assert acts[i] == st1.actions[i];
    }
    HasTopTocSkip(cfg, acts, |st.actions|, |st1.actions|);
  }

  /**
   * The top-level TOC is written exactly when the first unit of the list, which
   * is popped last, is kept; when that unit is pruned there is no top-level TOC.
   */
  lemma {:induction false} TopLevelTocIffRootKept(cfg: Config, kinds: FileKinds, work: seq<WorkUnit>, st: State)
    requires !cfg.dryRun && TocNameUnambiguous(cfg) && |work| >= 1
    ensures HasTopToc(cfg, Drain(cfg, kinds, work, st).actions, |st.actions|)
            <==> !Pruned(MarkAll(work[1..], st.nonEmpty), work[0])
    decreases |work|
  {
    var u := work[|work| - 1];
    var rest := work[..|work| - 1];
    assert work == rest + [u];
    DrainPop(cfg, kinds, rest, u, st);
    if |work| == 1 {
      assert rest == [] && u == work[0] && work[1..] == [];
      LastStepTopToc(cfg, kinds, st, u);
    } else {
      var st1 := Step(cfg, kinds, st, u, false);
      SkipStepTopToc(cfg, kinds, rest, st, u);
      TopLevelTocIffRootKept(cfg, kinds, rest, st1);
      StepMark(cfg, kinds, st, u, false);
      MarkAllPop(work[1..], st.nonEmpty);
      assert rest[0] == work[0];
      assert work[1..][..|work| - 2] == rest[1..];
    }
  }

  /** The inner `for subdir in subdirs` loop. */
  method KeepSubdirs(dir: Path, subdirs: seq<string>, nonEmpty: set<Path>) returns (kept: seq<string>)
    ensures kept == RetainedSubdirs(dir, subdirs, nonEmpty)
  {
    kept := [];
    var i := 0;
    while i < |subdirs|
      invariant 0 <= i <= |subdirs|
      invariant kept == RetainedSubdirs(dir, subdirs[..i], nonEmpty)
    {
      assert subdirs[..i + 1][..i] == subdirs[..i];
      if dir + [subdirs[i]] in nonEmpty {
        kept := kept + [subdirs[i]];
      }
      i := i + 1;
    }
    assert subdirs[..i] == subdirs;
  }

  /** One iteration of the inner loop: convert a feature file, copy a non-reST file, skip the rest. */
  method EmitFile(cfg: Config, kinds: FileKinds, dirList: seq<string>, f: string) returns (step: seq<Action>)
    ensures step == FileAction(cfg, kinds, dirList, f)
  {
    var src := cfg.rootPath + (dirList + [f]);
    if kinds.isFeature(f) {
      step := [Convert(src, ConvertDest(cfg, dirList, f))];
    } else if !kinds.isRst(f) {
      step := [Copy(src, CopyDest(cfg, dirList, f))];
    } else {
      step := [];
    }
  }

  /** The inner `for a_file in files` loop. */
  method EmitFiles(cfg: Config, kinds: FileKinds, dirList: seq<string>, files: seq<string>) returns (emitted: seq<Action>)
    ensures emitted == FileActions(cfg, kinds, dirList, files)
  {
    emitted := [];
    var j := 0;
    while j < |files|
      invariant 0 <= j <= |files|
      invariant emitted == FileActions(cfg, kinds, dirList, files[..j])
    {
      var f := files[j];
      var step := EmitFile(cfg, kinds, dirList, f);
      FileActionsPrefix(cfg, kinds, dirList, files, j);
      emitted := emitted + step;
      j := j + 1;
    }
    assert files[..j] == files;
  }

  /** `process_args` as written: a `while` loop popping units until the list is empty, then the glossary step. */
  method RunProcessArgs(cfg: Config, kinds: FileKinds, work: seq<WorkUnit>, glossary: Option<SphinxWriters.Writer>)
    returns (nonEmpty: set<Path>, actions: seq<Action>)
    ensures State(nonEmpty, actions) == ProcessArgs(cfg, kinds, work, glossary)
    ensures nonEmpty == MarkAll(work, {})
  {
    var todo := work;
    nonEmpty := {};
    actions := [];
    while |todo| > 0
      invariant Drain(cfg, kinds, todo, State(nonEmpty, actions)) == Drain(cfg, kinds, work, Initial)
      decreases |todo|
    {
      var u := todo[|todo| - 1];
      ghost var after := Step(cfg, kinds, State(nonEmpty, actions), u, |todo| == 1);
      todo := todo[..|todo| - 1];

      var kept := KeepSubdirs(u.dir, u.subdirs, nonEmpty);
      if |u.files| == 0 && |kept| == 0 {
        continue;
      }
      nonEmpty := nonEmpty + {u.dir};
      if cfg.dryRun {
        continue;
      }
      var tocDest;
      if |todo| == 0 {
        tocDest := TopLevelToc(cfg);
      } else {
        tocDest := cfg.outputPath + [FlatNames.MakeFlatName(u.dirList, None, true, Some(FlatNames.DefaultExt))];
      }
      var emitted := EmitFiles(cfg, kinds, u.dirList, u.files);
      actions := actions + [WriteToc(tocDest, u.dirList, kept, u.files, cfg.maxTocDepth)] + emitted;
      assert State(nonEmpty, actions) == after;
    }

    DrainMembership(cfg, kinds, work, Initial);
    if cfg.stepGlossaryName.Some? && cfg.stepGlossaryName.value != "" {
      if cfg.dryRun {
        return;
      }
      if glossary.None? {
        return;
      }
      actions := actions + [WriteGlossary(cfg.outputPath + [cfg.stepGlossaryName.value + FlatNames.DefaultExt], glossary.value)];
    }
  }
}

=== FILE: escaping.dfy ===
/**
 * `rst_escape`: a per-character translation that puts a backslash in front of
 * the characters reStructuredText would otherwise parse, optionally tripling
 * backslashes as well.
 */
module Escaping {

  const Backslash: char := '\\'

  /** The characters both escape tables rewrite to backslash + the character. */
  const SpecialChars: seq<char> := ['*', '"', '#', ':', '<', '>']

  predicate IsSpecial(c: char)
  {
    c in SpecialChars
  }

  /** `_escape_mappings`: each special character maps to a backslash followed by itself. */
  const EscapeMappings: map<char, string> := map c | c in SpecialChars :: [Backslash, c]

  /** `_advanced_escape_mappings`: the basic table plus backslash to three backslashes. */
  const AdvancedEscapeMappings: map<char, string> := EscapeMappings[Backslash := [Backslash, Backslash, Backslash]]

  /** The table `rst_escape` picks for the given `slash_escape` flag. */
  function Table(slashEscape: bool): map<char, string>
  {
    if slashEscape then AdvancedEscapeMappings else EscapeMappings
  }

  /** One character under Python's `str.translate`: its table entry, or itself when it has none. */
  function TranslateChar(c: char, table: map<char, string>): string
  {
    if c in table then table[c] else [c]
  }

  /** Python's `s.translate(table)` for a table whose values are strings. */
  function Translate(s: string, table: map<char, string>): (r: string)
    ensures (forall i :: 0 <= i < |s| ==> s[i] !in table) ==> r == s
    ensures (forall c :: c in table ==> |table[c]| >= 1) ==> |r| >= |s|
    decreases |s|
  {
    if |s| == 0 then "" else TranslateChar(s[0], table) + Translate(s[1..], table)
  }

  /**
   * `rst_escape(unescaped, slash_escape)`: the string grows by one character per
   * special character, and by two more per backslash when slashes are escaped.
   */
  function RstEscape(unescaped: string, slashEscape: bool): (r: string)
    ensures |r| == |unescaped| + CountSpecial(unescaped) + (if slashEscape then 2 * CountBackslash(unescaped) else 0)
  {
    TranslateLength(unescaped, slashEscape);
    Translate(unescaped, Table(slashEscape))
  }

  /** Number of special characters in `s`. */
  function CountSpecial(s: string): nat
    decreases |s|
  {
    if |s| == 0 then 0 else (if IsSpecial(s[0]) then 1 else 0) + CountSpecial(s[1..])
  }

  /** Number of backslashes in `s`. */
  function CountBackslash(s: string): nat
    decreases |s|
  {
    if |s| == 0 then 0 else (if s[0] == Backslash then 1 else 0) + CountBackslash(s[1..])
  }

  /** What the two tables do to a single character. */
  lemma EscapeTables(c: char)
    ensures TranslateChar(c, EscapeMappings) == if IsSpecial(c) then [Backslash, c] else [c]
    ensures TranslateChar(c, AdvancedEscapeMappings)
            == if c == Backslash then [Backslash, Backslash, Backslash]
               else TranslateChar(c, EscapeMappings)
  {
    assert !IsSpecial(Backslash);
  }

  /** Translation works character by character, so it distributes over concatenation. */
  lemma {:induction false} TranslateAppend(a: string, b: string, table: map<char, string>)
    ensures Translate(a + b, table) == Translate(a, table) + Translate(b, table)
    decreases |a|
  {
    if |a| > 0 {
      assert (a + b)[0] == a[0];
      assert (a + b)[1..] == a[1..] + b;
      TranslateAppend(a[1..], b, table);
    } else {
      assert a + b == b;
    }
  }

  /** The length count behind `RstEscape`'s contract. */
  lemma {:induction false} TranslateLength(s: string, slashEscape: bool)
    ensures |Translate(s, Table(slashEscape))| == |s| + CountSpecial(s) + (if slashEscape then 2 * CountBackslash(s) else 0)
    decreases |s|
  {
    if |s| > 0 {
      EscapeTables(s[0]);
      TranslateLength(s[1..], slashEscape);
    }
  }

  /** Without slash escaping a string is left unchanged exactly when it has no special character. */
  lemma {:induction false} RstEscapeUnchangedIff(s: string)
    ensures RstEscape(s, false) == s <==> CountSpecial(s) == 0
    decreases |s|
  {
    if |s| > 0 && CountSpecial(s) == 0 {
      EscapeTables(s[0]);
      RstEscapeUnchangedIff(s[1..]);
    }
  }

  /** The first character of a basic escape is never itself special. */
  lemma FirstNotSpecial(s: string)
    requires |RstEscape(s, false)| > 0
    ensures !IsSpecial(RstEscape(s, false)[0])
  {
    EscapeTables(s[0]);
  }

  /** Inverse of the basic escape: a backslash before a special character is dropped. */
  function Unescape(s: string): string
    decreases |s|
  {
    if |s| == 0 then ""
    else if |s| >= 2 && s[0] == Backslash && IsSpecial(s[1]) then [s[1]] + Unescape(s[2..])
    else [s[0]] + Unescape(s[1..])
  }

  /** Inverse of the slash-escaping variant: three backslashes become one as well. */
  function UnescapeSlash(s: string): string
    decreases |s|
  {
    if |s| == 0 then ""
    else if |s| >= 3 && s[0] == Backslash && s[1] == Backslash && s[2] == Backslash then [Backslash] + UnescapeSlash(s[3..])
    else if |s| >= 2 && s[0] == Backslash && IsSpecial(s[1]) then [s[1]] + UnescapeSlash(s[2..])
    else [s[0]] + UnescapeSlash(s[1..])
  }

  /** The basic escape loses nothing: unescaping recovers the input. */
  lemma {:induction false} RstEscapeRoundTrip(s: string)
    ensures Unescape(RstEscape(s, false)) == s
    decreases |s|
  {
    if |s| > 0 {
      var c := s[0];
      var rest := RstEscape(s[1..], false);
      var e := RstEscape(s, false);
      EscapeTables(c);
      assert e == TranslateChar(c, EscapeMappings) + rest;
      RstEscapeRoundTrip(s[1..]);
      if IsSpecial(c) {
        assert e[2..] == rest;
      } else {
        assert e[1..] == rest;
        if |e| >= 2 && e[0] == Backslash {
          FirstNotSpecial(s[1..]);
          assert e[1] == rest[0];
        }
      }
      assert s == [c] + s[1..];
    }
  }

  /** The slash-escaping variant loses nothing either. */
  lemma {:induction false} RstEscapeSlashRoundTrip(s: string)
    ensures UnescapeSlash(RstEscape(s, true)) == s
    decreases |s|
  {
    if |s| > 0 {
      var c := s[0];
      var rest := RstEscape(s[1..], true);
      var e := RstEscape(s, true);
      EscapeTables(c);
      assert e == TranslateChar(c, AdvancedEscapeMappings) + rest;
      RstEscapeSlashRoundTrip(s[1..]);
      if c == Backslash {
        assert e[3..] == rest;
      } else if IsSpecial(c) {
        assert e[2..] == rest;
      } else {
        assert e[1..] == rest;
      }
      assert s == [c] + s[1..];
    }
  }

  /** Distinct inputs have distinct escapes, in either mode. */
  lemma RstEscapeInjective(s: string, t: string, slashEscape: bool)
    requires RstEscape(s, slashEscape) == RstEscape(t, slashEscape)
    ensures s == t
  {
    if slashEscape {
      RstEscapeSlashRoundTrip(s);
      RstEscapeSlashRoundTrip(t);
    } else {
      RstEscapeRoundTrip(s);
      RstEscapeRoundTrip(t);
    }
  }

  /** The two flags agree on every string without backslashes. */
  lemma {:induction false} SlashEscapeOnlyTouchesBackslashes(s: string)
    requires CountBackslash(s) == 0
    ensures RstEscape(s, true) == RstEscape(s, false)
    decreases |s|
  {
    if |s| > 0 {
      EscapeTables(s[0]);
      SlashEscapeOnlyTouchesBackslashes(s[1..]);
    }
  }
}

=== FILE: example.dfy ===
/**
 * A worked run of the contraction loop on a three-directory tree:
 * `root/A/feature1.feature`, an empty `root/B`, and `root/readme.rst`,
 * scanned from `src` and written to `out`, for any classifier that takes
 * `feature1.feature` for a feature file and `readme.rst` for an rST file.
 */
module Example {
  import opened Options
  import opened Contraction
  import FlatNames
  import Text

  const RootUnit: WorkUnit := WorkUnit(["src", "root"], ["root"], ["A", "B"], ["readme.rst"])
  const AUnit: WorkUnit := WorkUnit(["src", "root", "A"], ["root", "A"], [], ["feature1.feature"])
  const BUnit: WorkUnit := WorkUnit(["src", "root", "B"], ["root", "B"], [], [])

  const AToc: Action := WriteToc(["out", "root.A-toc.rst"], ["root", "A"], [], ["feature1.feature"], 4)
  const AConvert: Action := Convert(["src", "root", "A", "feature1.feature"], ["out", "root.A.feature1.feature-file.rst"])
  const RootToc: Action := WriteToc(["out", "gherkin.rst"], ["root"], ["A"], ["readme.rst"], 4)

  /** `B` has no files and no kept subdirectory: it is pruned. */
  lemma ExampleStepB(cfg: Config, kinds: FileKinds)
    ensures Step(cfg, kinds, Initial, BUnit, false) == Initial
  {
    assert RetainedSubdirs(BUnit.dir, [], {}) == [];
  }

  /** The flat name of `A`'s TOC. */
  lemma ExampleTocName()
    ensures FlatNames.MakeFlatName(["root", "A"], None, true, Some(".rst")) == "root.A-toc.rst"
  {
    assert Text.Join(["root", "A"], '.') == "root.A";
  }

  /** The flat name `A`'s feature file is converted to. */
  lemma ExampleFileName()
    ensures FlatNames.MakeFlatName(["root", "A", "feature1.feature"], None, false, Some(".rst"))
            == "root.A.feature1.feature-file.rst"
  {
    assert Text.Join(["root", "A", "feature1.feature"], '.') == "root.A.feature1.feature";
  }

  /** `A` is kept: a flat TOC, then the conversion of its feature file. */
  lemma ExampleStepA(cfg: Config, kinds: FileKinds, a: WorkUnit)
    requires cfg == Config(["out"], ["src"], "gherkin", 4, false, None)
    requires kinds.isFeature("feature1.feature")
    requires a == AUnit
    ensures Step(cfg, kinds, Initial, a, false) == State({a.dir}, [AToc, AConvert])
  {
    ExampleTocName();
    ExampleFileName();
    assert ["root", "A"] + ["feature1.feature"] == ["root", "A", "feature1.feature"];
    assert ["src"] + ["root", "A", "feature1.feature"] == ["src", "root", "A", "feature1.feature"];
    assert ConvertDest(cfg, ["root", "A"], "feature1.feature") == ["out", "root.A.feature1.feature-file.rst"];
    assert FileAction(cfg, kinds, ["root", "A"], "feature1.feature") == [AConvert];
    assert FileActions(cfg, kinds, a.dirList, a.files) == [AConvert] by {
      assert a.files[..0] == [];
      assert FileActions(cfg, kinds, a.dirList, []) == [];
    }
    assert TocDest(cfg, ["root", "A"], false) == ["out", "root.A-toc.rst"];
    assert RetainedSubdirs(a.dir, [], {}) == [];
  }

  /** Of the root's subdirectories only `A` is recorded as non-empty. */
  lemma ExampleRootKeepsA(root: WorkUnit)
    requires root == RootUnit
    ensures RetainedSubdirs(root.dir, root.subdirs, {["src", "root", "A"]}) == ["A"]
  {
    var ne: set<Path> := {["src", "root", "A"]};
    assert root.subdirs[..1] == ["A"] && root.subdirs[1] == "B";
    assert root.dir + ["B"] !in ne by {
      assert (root.dir + ["B"])[2] == "B";
    }
    assert RetainedSubdirs(root.dir, root.subdirs, ne) == RetainedSubdirs(root.dir, ["A"], ne);
    assert root.dir + ["A"] == ["src", "root", "A"];
    assert ["A"][..0] == [];
    assert RetainedSubdirs(root.dir, ["A"], ne) == RetainedSubdirs(root.dir, [], ne) + ["A"];
  }

  /** The root's only file is an rST file: no per-file action. */
  lemma ExampleRootFiles(cfg: Config, kinds: FileKinds, root: WorkUnit)
    requires !kinds.isFeature("readme.rst") && kinds.isRst("readme.rst")
    requires root == RootUnit
    ensures FileActions(cfg, kinds, root.dirList, root.files) == []
  {
    assert root.files[..0] == [];
    assert FileActions(cfg, kinds, root.dirList, []) == [];
  }

  /** The root's TOC goes to the top-level name and lists `A` and the root's own files. */
  lemma ExampleRootToc(cfg: Config, root: WorkUnit)
    requires cfg == Config(["out"], ["src"], "gherkin", 4, false, None)
    requires root == RootUnit
    ensures WriteToc(TocDest(cfg, root.dirList, true), root.dirList, ["A"], root.files, cfg.maxTocDepth) == RootToc
  {
    assert "gherkin" + FlatNames.DefaultExt == "gherkin.rst";
  }

  /** The root is popped last: it keeps `A` but not `B`, writes the top-level TOC, and its rST file yields no action. */
  lemma ExampleStepRoot(cfg: Config, kinds: FileKinds, root: WorkUnit)
    requires cfg == Config(["out"], ["src"], "gherkin", 4, false, None)
    requires !kinds.isFeature("readme.rst") && kinds.isRst("readme.rst")
    requires root == RootUnit
    ensures Step(cfg, kinds, State({["src", "root", "A"]}, [AToc, AConvert]), root, true)
            == State({["src", "root", "A"], root.dir}, [AToc, AConvert, RootToc])
  {
    ExampleRootKeepsA(root);
    ExampleRootFiles(cfg, kinds, root);
    ExampleRootToc(cfg, root);
  }

  /** `B` is pruned; `A` gets a flat TOC and one converted feature; the root gets the top-level TOC listing only `A`. */
  lemma ExampleRun(cfg: Config, kinds: FileKinds, root: WorkUnit, a: WorkUnit, b: WorkUnit)
    requires cfg == Config(["out"], ["src"], "gherkin", 4, false, None)
    requires kinds.isFeature("feature1.feature")
    requires !kinds.isFeature("readme.rst") && kinds.isRst("readme.rst")
    requires root == RootUnit && a == AUnit && b == BUnit
    ensures ProcessArgs(cfg, kinds, [root, a, b], None).nonEmpty == {["src", "root", "A"], ["src", "root"]}
    ensures ProcessArgs(cfg, kinds, [root, a, b], None).actions == [AToc, AConvert, RootToc]
  {
    var afterA := State({a.dir}, [AToc, AConvert]);
    ExampleStepB(cfg, kinds);
    ExampleStepA(cfg, kinds, a);
    ExampleStepRoot(cfg, kinds, root);
    assert [root, a, b] == [root, a] + [b] && [root, a] == [root] + [a] && [root] == [] + [root];
    DrainPop(cfg, kinds, [root, a], b, Initial);
    assert Drain(cfg, kinds, [root, a, b], Initial) == Drain(cfg, kinds, [root, a], Initial);
    DrainPop(cfg, kinds, [root], a, Initial);
    assert Drain(cfg, kinds, [root, a], Initial) == Drain(cfg, kinds, [root], afterA);
    DrainPop(cfg, kinds, [], root, afterA);
    assert Drain(cfg, kinds, [root], afterA) == Step(cfg, kinds, afterA, root, true);
    assert GlossaryActions(cfg, None) == [];
  }
}

=== FILE: flat_names.dfy ===
/**
 * The flat output naming of the generated documentation: a source path
 * `[d1, ..., dn]` becomes the single file name `d1.....dn`, followed by a
 * `-toc` (directory table of contents) or `-file` (converted file) marker and
 * an extension, or by nothing at all for a verbatim copy.
 */
module FlatNames {
  import opened Options
  import Text

  const Separator: char := '.'
  const TocMarker: string := "-toc"
  const FileMarker: string := "-file"
  const DefaultExt: string := ".rst"

  /** The path list with the optional file-name root appended. */
  function FullPath(pathList: seq<string>, filenameRoot: Option<string>): (p: seq<string>)
    ensures filenameRoot.None? ==> p == pathList
    ensures filenameRoot.Some? ==> |p| == |pathList| + 1 && p[..|pathList|] == pathList
                                   && p[|pathList|] == filenameRoot.value
  {
    match filenameRoot
    case None => pathList
    case Some(root) => pathList + [root]
  }

  /** The marker that separates a directory's name from a file's. */
  function Marker(isDir: bool): string
  {
    if isDir then TocMarker else FileMarker
  }

  /**
   * `make_flat_name(path_list, filename_root, is_dir, ext)`: the path segments
   * joined by periods; with an extension, the directory/file marker and the
   * extension follow.
   */
  function MakeFlatName(pathList: seq<string>, filenameRoot: Option<string>, isDir: bool, ext: Option<string>): (r: string)
    ensures var joined := Text.Join(FullPath(pathList, filenameRoot), Separator);
            && |joined| <= |r| && r[..|joined|] == joined
            && (ext.None? ==> r == joined)
            && (ext.Some? ==> |r| == |joined| + |Marker(isDir)| + |ext.value|
                              && r[|joined|..|joined| + |Marker(isDir)|] == (if isDir then "-toc" else "-file")
                              && r[|r| - |ext.value|..] == ext.value)
  {
    var joined := Text.Join(FullPath(pathList, filenameRoot), Separator);
    match ext
    case None => joined
    case Some(e) => joined + Marker(isDir) + e
  }

  /** Without an extension the name is the bare joined path, whatever `isDir` says. */
  lemma BareNameIgnoresIsDir(pathList: seq<string>, filenameRoot: Option<string>)
    ensures MakeFlatName(pathList, filenameRoot, true, None) == MakeFlatName(pathList, filenameRoot, false, None)
    ensures Text.Split(MakeFlatName(pathList, None, false, None), Separator) == pathList
            <== |pathList| >= 1 && Text.NoneContains(pathList, Separator)
  {
    if |pathList| >= 1 && Text.NoneContains(pathList, Separator) {
      Text.SplitJoin(pathList, Separator);
    }
  }

  /** Supplying a file-name root is the same as appending it to the path list. */
  lemma FilenameRootIsAppend(pathList: seq<string>, root: string, isDir: bool, ext: Option<string>)
    ensures MakeFlatName(pathList, Some(root), isDir, ext) == MakeFlatName(pathList + [root], None, isDir, ext)
  {
  }

  /** With a non-empty path the name of `path + [x]` is the path's bare name, a period, then `x`. */
  lemma {:induction false} ChildName(pathList: seq<string>, x: string)
    requires |pathList| >= 1
    ensures MakeFlatName(pathList + [x], None, false, None) == MakeFlatName(pathList, None, false, None) + [Separator] + x
  {
    Text.JoinAppend(pathList, x, Separator);
  }

  /** A directory's TOC name never equals any file's name under the same extension. */
  lemma TocNeverFileName(p: seq<string>, rp: Option<string>, q: seq<string>, rq: Option<string>, ext: string)
    ensures MakeFlatName(p, rp, true, Some(ext)) != MakeFlatName(q, rq, false, Some(ext))
  {
    var a := MakeFlatName(p, rp, true, Some(ext));
    var b := MakeFlatName(q, rq, false, Some(ext));
    var jp := Text.Join(FullPath(p, rp), Separator);
    var jq := Text.Join(FullPath(q, rq), Separator);
    assert a == jp + "-toc" + ext;
    assert b == jq + "-file" + ext;
    assert a[|a| - |ext| - 3] == 't';
    assert b[|b| - |ext| - 3] == 'i';
  }

  /**
   * Collision freedom: for one extension, distinct `(path, isDir)` pairs get
   * distinct names, provided the paths are non-empty and no segment contains a period.
   */
  lemma FlatNameInjective(p: seq<string>, pd: bool, q: seq<string>, qd: bool, ext: string)
    requires |p| >= 1 && |q| >= 1
    requires Text.NoneContains(p, Separator) && Text.NoneContains(q, Separator)
    requires MakeFlatName(p, None, pd, Some(ext)) == MakeFlatName(q, None, qd, Some(ext))
    ensures p == q && pd == qd
  {
    if pd != qd {
      if pd {
        TocNeverFileName(p, None, q, None, ext);
      } else {
        TocNeverFileName(q, None, p, None, ext);
      }
    }
    var r := MakeFlatName(p, None, pd, Some(ext));
    var jp := Text.Join(p, Separator);
    var jq := Text.Join(q, Separator);
    assert |jp| == |jq| && jp == r[..|jp|] && jq == r[..|jq|];
    Text.JoinInjective(p, q, Separator);
  }

  /** The bare (copy) name is collision free under the same conditions. */
  lemma BareNameInjective(p: seq<string>, q: seq<string>)
    requires |p| >= 1 && |q| >= 1
    requires Text.NoneContains(p, Separator) && Text.NoneContains(q, Separator)
    requires MakeFlatName(p, None, false, None) == MakeFlatName(q, None, false, None)
    ensures p == q
  {
    Text.JoinInjective(p, q, Separator);
  }

  /** Periods inside segments defeat collision freedom: `["a.b"]` and `["a", "b"]` share a name. */
  lemma DottedSegmentsCollide(isDir: bool, ext: Option<string>)
    ensures MakeFlatName(["a.b"], None, isDir, ext) == MakeFlatName(["a", "b"], None, isDir, ext)
    ensures ["a.b"] != ["a", "b"]
  {
    assert Text.Join(["a", "b"], Separator) == "a.b";
  }

  /** The documented naming convention on a small path. */
  lemma NamingExamples()
    ensures MakeFlatName(["a", "b"], None, true, Some(DefaultExt)) == "a.b-toc.rst"
    ensures MakeFlatName(["a", "b"], None, false, Some(DefaultExt)) == "a.b-file.rst"
    ensures MakeFlatName(["a"], Some("x.feature"), false, None) == "a.x.feature"
  {
    assert Text.Join(["a", "b"], Separator) == "a.b";
    assert Text.Join(["a", "x.feature"], Separator) == "a.x.feature";
  }
}

=== FILE: options.dfy ===
/** Optional values: the model's counterpart of Python's `None`-or-value arguments and returns. */
module Options {

  datatype Option<+T> = None | Some(value: T)
}

=== FILE: roles.dfy ===
/**
 * The custom reStructuredText roles: the fixed list of role names the
 * extension registers, the conversion of free text into a role name, and the
 * wrapping of content in a role.
 */
module Roles {
  import opened Options
  import Text

  /** `_keywords`: the Gherkin keywords (plus "tag") that get a keyword and a content role. */
  const Keywords: seq<string> := ["feature", "background", "scenario", "scenario-outline", "examples", "tag"]

  /** The four roles listed literally before the keyword loop. */
  const BaseRoles: seq<string> := [
    "gherkin-step-keyword",
    "gherkin-step-content",
    "gherkin-feature-description",
    "gherkin-scenario-description"
  ]

  function KeywordRole(keyword: string): string
  {
    "gherkin-" + keyword + "-keyword"
  }

  function ContentRole(keyword: string): string
  {
    "gherkin-" + keyword + "-content"
  }

  /** The `for keyword in _keywords: AVAILABLE_ROLES.extend([...])` loop. */
  function ExtendRoles(roles: seq<string>, keywords: seq<string>): (r: seq<string>)
    ensures |r| == |roles| + 2 * |keywords|
    decreases |keywords|
  {
    if |keywords| == 0 then roles
    else ExtendRoles(roles + [KeywordRole(keywords[0]), ContentRole(keywords[0])], keywords[1..])
  }

  /** The loop keeps the initial roles and then lists, per keyword in order, its keyword role and its content role. */
  lemma {:induction false} ExtendRolesLayout(roles: seq<string>, keywords: seq<string>)
    ensures var r := ExtendRoles(roles, keywords);
            && r[..|roles|] == roles
            && forall i :: 0 <= i < |keywords| ==>
                 r[|roles| + 2 * i] == KeywordRole(keywords[i]) && r[|roles| + 2 * i + 1] == ContentRole(keywords[i])
    decreases |keywords|
  {
    if |keywords| > 0 {
      var k0 := keywords[0];
      var roles' := roles + [KeywordRole(k0), ContentRole(k0)];
      ExtendRolesLayout(roles', keywords[1..]);
      var r := ExtendRoles(roles, keywords);
      assert r == ExtendRoles(roles', keywords[1..]);
      assert r[..|roles|] == roles'[..|roles|];
      forall i | 1 <= i < |keywords|
        ensures r[|roles| + 2 * i] == KeywordRole(keywords[i]) && r[|roles| + 2 * i + 1] == ContentRole(keywords[i])
      {
        assert keywords[i] == keywords[1..][i - 1];
        assert |roles| + 2 * i == |roles'| + 2 * (i - 1);
      }
    }
  }

  /** `AVAILABLE_ROLES`: the base roles first, then a keyword role and a content role per keyword, in keyword order. */
  function AvailableRoles(): (r: seq<string>)
    ensures |r| == |BaseRoles| + 2 * |Keywords|
    ensures r[..|BaseRoles|] == BaseRoles
    ensures forall i :: 0 <= i < |Keywords| ==>
              r[|BaseRoles| + 2 * i] == KeywordRole(Keywords[i]) && r[|BaseRoles| + 2 * i + 1] == ContentRole(Keywords[i])
  {
    ExtendRolesLayout(BaseRoles, Keywords);
    ExtendRoles(BaseRoles, Keywords)
  }

  /** The extension loop adds exactly the keyword and content roles of the given keywords. */
  lemma {:induction false} ExtendRolesMembership(roles: seq<string>, keywords: seq<string>, role: string)
    ensures role in ExtendRoles(roles, keywords) <==>
              role in roles || exists k :: k in keywords && (role == KeywordRole(k) || role == ContentRole(k))
    decreases |keywords|
  {
    if |keywords| > 0 {
      var k0 := keywords[0];
      ExtendRolesMembership(roles + [KeywordRole(k0), ContentRole(k0)], keywords[1..], role);
      assert keywords == [k0] + keywords[1..];
      assert forall k :: k in keywords <==> k == k0 || k in keywords[1..];
    }
  }

  /** `AVAILABLE_ROLES` has sixteen entries: the four base roles and two per keyword, nothing else. */
  lemma AvailableRolesMembership(role: string)
    ensures |AvailableRoles()| == 16
    ensures role in AvailableRoles() <==>
              role in BaseRoles || exists k :: k in Keywords && (role == KeywordRole(k) || role == ContentRole(k))
  {
    ExtendRolesMembership(BaseRoles, Keywords, role);
  }

  /** ASCII lower-casing of one character. */
  function LowerChar(c: char): char
  {
    if 'A' <= c <= 'Z' then (c as int + 32) as char else c
  }

  predicate IsUpperAscii(c: char)
  {
    'A' <= c <= 'Z'
  }

  /** `s.lower()`, restricted to ASCII letters. */
  function Lower(s: string): string
    decreases |s|
  {
    if |s| == 0 then "" else [LowerChar(s[0])] + Lower(s[1..])
  }

  /** `s.replace(from, to)` for single characters. */
  function ReplaceChar(s: string, from: char, to: char): string
    decreases |s|
  {
    if |s| == 0 then "" else [if s[0] == from then to else s[0]] + ReplaceChar(s[1..], from, to)
  }

  /** A role name: no space and no upper-case ASCII letter, the form `role_name_from` produces. */
  predicate IsRoleName(s: string)
  {
    ' ' !in s && forall i :: 0 <= i < |s| ==> !IsUpperAscii(s[i])
  }

  /** `role_name_from`: lower-case the text and turn spaces into hyphens. */
  function RoleNameFrom(s: string): (r: string)
    ensures |r| == |s|
    ensures forall i :: 0 <= i < |s| ==> r[i] == if s[i] == ' ' then '-' else LowerChar(s[i])
    ensures IsRoleName(r)
  {
    LowerReplaceFacts(s);
    ReplaceChar(Lower(s), ' ', '-')
  }

  lemma {:induction false} LowerReplaceFacts(s: string)
    ensures |ReplaceChar(Lower(s), ' ', '-')| == |s|
    ensures forall i :: 0 <= i < |s| ==>
              ReplaceChar(Lower(s), ' ', '-')[i] == if s[i] == ' ' then '-' else LowerChar(s[i])
    decreases |s|
  {
    if |s| > 0 {
      LowerReplaceFacts(s[1..]);
      var r := ReplaceChar(Lower(s), ' ', '-');
      assert Lower(s)[1..] == Lower(s[1..]);
      forall i | 0 < i < |s|
        ensures r[i] == if s[i] == ' ' then '-' else LowerChar(s[i])
      {
        assert r[i] == ReplaceChar(Lower(s[1..]), ' ', '-')[i - 1];
        assert s[i] == s[1..][i - 1];
      }
    }
  }

  /** A role name is unchanged by `role_name_from` exactly when it has no space and no upper-case letter. */
  lemma RoleNameFromFixedIff(s: string)
    ensures RoleNameFrom(s) == s <==> IsRoleName(s)
  {
    var r := RoleNameFrom(s);
    if IsRoleName(s) {
      assert forall i :: 0 <= i < |s| ==> r[i] == s[i];
    }
  }

  /** Converting twice is converting once. */
  lemma RoleNameFromIdempotent(s: string)
    ensures RoleNameFrom(RoleNameFrom(s)) == RoleNameFrom(s)
  {
    RoleNameFromFixedIff(RoleNameFrom(s));
  }

  /** `apply_role(role, content)`: the rST interpreted-text form ``:role:`content` ``. */
  function ApplyRole(role: string, content: string): (r: string)
    ensures |r| == |role| + |content| + 4
    ensures r[0] == ':' && r[|role| + 1] == ':' && r[|role| + 2] == '`' && r[|r| - 1] == '`'
    ensures r[1..|role| + 1] == role && r[|role| + 3..|r| - 1] == content
  {
    ":" + role + ":`" + content + "`"
  }

  /** Reads ``:role:`content` `` back, taking the role up to the first colon. */
  function ParseRole(s: string): Option<(string, string)>
  {
    if |s| < 4 || s[0] != ':' then None
    else
      var i := 1 + Text.IndexOf(s[1..], ':');
      if i + 2 > |s| - 1 || s[i + 1] != '`' || s[|s| - 1] != '`' then None
      else Some((s[1..i], s[i + 2..|s| - 1]))
  }

  /** Parsing undoes `apply_role` whenever the role has no colon. */
  lemma ParseApplyRole(role: string, content: string)
    requires ':' !in role
    ensures ParseRole(ApplyRole(role, content)) == Some((role, content))
  {
    var s := ApplyRole(role, content);
    var t := s[1..];
    var j := Text.IndexOf(t, ':');
    assert t[|role|] == ':';
    assert forall k :: 0 <= k < |role| ==> t[k] == role[k];
    assert j == |role|;
  }

  /** Whatever parses is the application of a colon-free role. */
  lemma ApplyParseRole(s: string, role: string, content: string)
    requires ParseRole(s) == Some((role, content))
    ensures ':' !in role
    ensures s == ApplyRole(role, content)
  {
    var i := 1 + Text.IndexOf(s[1..], ':');
    assert role == s[1..][..i - 1];
    assert s == [s[0]] + s[1..i] + [s[i], s[i + 1]] + s[i + 2..|s| - 1] + [s[|s| - 1]];
  }

  lemma RoleNameConcat(a: string, b: string)
    requires IsRoleName(a) && IsRoleName(b)
    ensures IsRoleName(a + b)
  {
    assert forall i :: 0 <= i < |a + b| ==> (a + b)[i] == if i < |a| then a[i] else b[i - |a|];
  }

  /** The keywords are role names, checked entry by entry. */
  lemma KeywordAt(i: int)
    requires 0 <= i < |Keywords|
    ensures IsRoleName(Keywords[i])
  {
    if i == 0 {
      assert Keywords[0] == "feature";
    } else if i == 1 {
      assert Keywords[1] == "background";
    } else if i == 2 {
      assert Keywords[2] == "scenario";
    } else if i == 3 {
      assert Keywords[3] == "scenario-outline";
    } else if i == 4 {
      assert Keywords[4] == "examples";
    } else {
      assert Keywords[5] == "tag";
    }
  }

  lemma KeywordsAreRoleNames(s: string)
    requires s in Keywords
    ensures IsRoleName(s)
  {
    var i :| 0 <= i < |Keywords| && Keywords[i] == s;
    KeywordAt(i);
  }

  /** The base roles are role names, checked entry by entry. */
  lemma BaseRoleAt(i: int)
    requires 0 <= i < |BaseRoles|
    ensures IsRoleName(BaseRoles[i])
  {
    if i == 0 {
      assert BaseRoles[0] == "gherkin-step-keyword";
    } else if i == 1 {
      assert BaseRoles[1] == "gherkin-step-content";
    } else if i == 2 {
      assert BaseRoles[2] == "gherkin-feature-description";
    } else {
      assert BaseRoles[3] == "gherkin-scenario-description";
    }
  }

  lemma BaseRolesAreRoleNames(s: string)
    requires s in BaseRoles
    ensures IsRoleName(s)
  {
    var i :| 0 <= i < |BaseRoles| && BaseRoles[i] == s;
    BaseRoleAt(i);
  }

  /** The keyword and content roles of a keyword are role names. */
  lemma KeywordRolesAreRoleNames(k: string)
    requires k in Keywords
    ensures IsRoleName(KeywordRole(k)) && IsRoleName(ContentRole(k))
  {
    KeywordsAreRoleNames(k);
    assert IsRoleName("gherkin-") && IsRoleName("-keyword") && IsRoleName("-content");
    RoleNameConcat("gherkin-", k);
    RoleNameConcat("gherkin-" + k, "-keyword");
    RoleNameConcat("gherkin-" + k, "-content");
  }

  /** Base roles and the roles generated from the keywords are role names. */
  lemma ListedRolesAreRoleNames(role: string)
    requires role in BaseRoles || exists k :: k in Keywords && (role == KeywordRole(k) || role == ContentRole(k))
    ensures IsRoleName(role)
  {
    if role in BaseRoles {
      BaseRolesAreRoleNames(role);
    } else {
      var k :| k in Keywords && (role == KeywordRole(k) || role == ContentRole(k));
      KeywordRolesAreRoleNames(k);
    }
  }

  /** Every available role is already a role name: `role_name_from` leaves it unchanged. */
  lemma AvailableRolesAreRoleNames(role: string)
    requires role in AvailableRoles()
    ensures RoleNameFrom(role) == role
  {
    AvailableRolesMembership(role);
    ListedRolesAreRoleNames(role);
    RoleNameFromFixedIff(role);
  }
}

=== FILE: sphinx_writer.dfy ===
/**
 * The text-accumulating part of `SphinxWriter`: a document is the list of
 * pieces added so far, and writing it out joins them with nothing in between.
 */
module SphinxWriters {
  import opened Options
  import Text

  /** `SphinxWriter.sections`: the underline string of each section level. */
  const Sections: seq<string> := ["", "=", "-", "~", ".", "*", "+", "_", "<", ">", "/"]

  /** The accumulated output pieces of one document. */
  datatype Writer = Writer(output: seq<string>)

  /** A freshly constructed writer. */
  const Empty: Writer := Writer([])

  /**
   * The text `write_to_file` would write, `"".join(output)`: the first piece
   * opens it, and it is empty exactly when every piece is.
   */
  function Contents(w: Writer): (r: string)
    ensures |w.output| >= 1 ==> |w.output[0]| <= |r| && r[..|w.output[0]|] == w.output[0]
    ensures r == "" <==> forall i :: 0 <= i < |w.output| ==> w.output[i] == ""
    decreases |w.output|
  {
    if |w.output| == 0 then ""
    else
      var init := Writer(w.output[..|w.output| - 1]);
      var text := Contents(init) + w.output[|w.output| - 1];
      assert forall i :: 0 <= i < |init.output| ==> init.output[i] == w.output[i];
      text
  }

  /** Adding one more piece appends exactly that piece to the text. */
  lemma ContentsAppend(w: Writer, piece: string)
    ensures Contents(Writer(w.output + [piece])) == Contents(w) + piece
  {
    assert (w.output + [piece])[..|w.output|] == w.output;
  }

  /** Python's `' ' * n` / `'\n' * n` count: negative counts behave like zero. */
  function Clamp(n: int): nat
  {
    if n <= 0 then 0 else n
  }

  /** `add_output(line, line_breaks, indent_by)`: appends one piece and leaves the earlier ones alone. */
  function AddOutput(w: Writer, line: string, lineBreaks: int, indentBy: int): (r: Writer)
    ensures |r.output| == |w.output| + 1 && r.output[..|w.output|] == w.output
    ensures var piece := r.output[|w.output|];
            var ind := Clamp(indentBy);
            && |piece| == ind + |line| + Clamp(lineBreaks)
            && (forall i :: 0 <= i < ind ==> piece[i] == ' ')
            && piece[ind..ind + |line|] == line
            && (forall i :: ind + |line| <= i < |piece| ==> piece[i] == '\n')
  {
    var piece := Text.Repeat(" ", indentBy) + line + Text.Repeat("\n", lineBreaks);
    assert piece[Clamp(indentBy)..Clamp(indentBy) + |line|] == line;
    Writer(w.output + [piece])
  }

  /** Adding a piece appends exactly that piece to the written text. */
  lemma AddOutputContents(w: Writer, line: string, lineBreaks: int, indentBy: int)
    ensures var r := AddOutput(w, line, lineBreaks, indentBy);
            Contents(r) == Contents(w) + r.output[|w.output|]
  {
    var r := AddOutput(w, line, lineBreaks, indentBy);
    assert r.output == w.output + [r.output[|w.output|]];
    ContentsAppend(w, r.output[|w.output|]);
  }

  /** `blank_line()`: one piece holding a single newline. */
  function BlankLine(w: Writer): (r: Writer)
    ensures r.output == w.output + ["\n"]
    ensures Contents(r) == Contents(w) + "\n"
  {
    var blank := AddOutput(w, "", 1, 0);
    assert blank.output[|w.output|] == "\n";
    assert blank.output == w.output + ["\n"];
    ContentsAppend(w, "\n");
    blank
  }

  /** Python list indexing: negative positions count from the end; `None` is an `IndexError`. */
  function PyIndex(length: nat, index: int): (r: Option<nat>)
    ensures r.Some? <==> -(length as int) <= index < length
    ensures r.Some? ==> r.value < length && (r.value == index || r.value == index + length)
  {
    if 0 <= index < length then Some(index)
    else if -(length as int) <= index < 0 then Some(index + length)
    else None
  }

  /**
   * Outcome of `create_section`: the new writer, or the `IndexError` raised for a
   * level outside the table, by which time the title piece has already been added.
   */
  datatype SectionOutcome = Written(writer: Writer) | IndexError(partial: Writer)

  /** `create_section(level, section)`: the title, then its underline and a blank line. */
  function CreateSection(w: Writer, level: int, section: string): (r: SectionOutcome)
    ensures r.Written? <==> -|Sections| <= level < |Sections|
    ensures r.IndexError? ==> r.partial.output == w.output + [section + "\n"]
    ensures r.Written? ==>
              && |r.writer.output| == |w.output| + 2
              && r.writer.output[..|w.output| + 1] == w.output + [section + "\n"]
  {
    var titled := AddOutput(w, section, 1, 0);
    assert titled.output[|w.output|] == section + "\n";
    assert titled.output == w.output + [section + "\n"];
    match PyIndex(|Sections|, level)
    case None => IndexError(titled)
    case Some(pos) =>
      var underlined := AddOutput(titled, Text.Repeat(Sections[pos], |Text.RStrip(section)|), 2, 0);
      assert underlined.output[..|w.output| + 1] == titled.output;
      Written(underlined)
  }

  /**
   * For a supported level (negative ones counting from the end of the table) the
   * second piece is the level's underline character repeated once per character
   * of the title without trailing whitespace, then two newlines; level 0 gets an
   * empty underline.
   */
  lemma CreateSectionUnderline(w: Writer, level: int, section: string)
    requires -|Sections| <= level < |Sections|
    ensures CreateSection(w, level, section).Written?
    ensures var pos := if level < 0 then level + |Sections| else level;
            var underline := CreateSection(w, level, section).writer.output[|w.output| + 1];
            var width := if pos == 0 then 0 else |Text.RStrip(section)|;
            && |underline| == width + 2
            && (forall i :: 0 <= i < width ==> underline[i] == Sections[pos][0])
            && underline[width..] == "\n\n"
  {
    var pos := if level < 0 then level + |Sections| else level;
    assert PyIndex(|Sections|, level) == Some(pos);
    var titled := AddOutput(w, section, 1, 0);
    var n := |Text.RStrip(section)|;
    var mark := Sections[pos];
    SectionsShape(pos);
    var bar := Text.Repeat(mark, n);
    var r := AddOutput(titled, bar, 2, 0);
    assert CreateSection(w, level, section) == Written(r);
    var piece := r.output[|w.output| + 1];
    assert piece == bar + "\n\n";
    if pos == 0 {
      assert |bar| == 0;
    } else {
      assert |bar| == n;
      assert forall i :: 0 <= i < n ==> piece[i] == bar[i] == mark[0];
    }
  }

  /** Level 0 has an empty underline string, every other level a single character. */
  lemma SectionsShape(level: int)
    requires 0 <= level < |Sections|
    ensures |Sections| == 11
    ensures |Sections[level]| == if level == 0 then 0 else 1
  {
  }

  /** A level-1 section on a fresh writer: the title, a matching `=` underline and a blank line. */
  lemma CreateSectionExample(w: Writer, title: string)
    requires w == Empty && title == "Ab "
    ensures CreateSection(w, 1, title) == Written(Writer(["Ab \n", "==\n\n"]))
    ensures Contents(CreateSection(w, 1, title).writer) == "Ab \n==\n\n"
  {
    assert Text.RStrip(title) == "Ab" by {
      assert Text.IsSpace(title[2]) && !Text.IsSpace(title[1]);
      assert title[..2] == "Ab";
    }
    CreateSectionUnderline(w, 1, title);
    var out := CreateSection(w, 1, title).writer.output;
    assert out[0] == "Ab \n";
    assert Sections[1][0] == '=';
    assert out[1] == "==\n\n";
    assert out == ["Ab \n", "==\n\n"];
    ContentsAppend(Writer([out[0]]), out[1]);
    ContentsAppend(w, out[0]);
    assert [out[0]] == w.output + [out[0]];
  }
}

=== FILE: text.dfy ===
/**
 * String helpers with Python's meaning: `sep.join(parts)`, `s.split(sep)`,
 * `s * n` and `s.rstrip()`. Strings are `seq<char>`.
 */
module Text {

  /** Python's `sep.join(parts)` for a one-character separator. */
  function Join(parts: seq<string>, sep: char): (r: string)
    ensures |parts| >= 1 ==> |parts[0]| <= |r| && r[..|parts[0]|] == parts[0]
    decreases |parts|
  {
    if |parts| == 0 then ""
    else if |parts| == 1 then parts[0]
    else parts[0] + [sep] + Join(parts[1..], sep)
  }

  /** True when no part contains `sep`. */
  predicate NoneContains(parts: seq<string>, sep: char)
  {
    forall i :: 0 <= i < |parts| ==> sep !in parts[i]
  }

  /** Position of the first `c` in `s`, or `|s|` when `c` does not occur. */
  function IndexOf(s: string, c: char): (i: nat)
    ensures i <= |s|
    ensures i < |s| ==> s[i] == c
    ensures forall j :: 0 <= j < i ==> s[j] != c
    ensures i == |s| <==> c !in s
  {
    if |s| == 0 then 0
    else if s[0] == c then 0
    else 1 + IndexOf(s[1..], c)
  }

  /** Python's `s.split(sep)`: the pieces between occurrences of `sep`; never empty. */
  function Split(s: string, sep: char): (r: seq<string>)
    ensures |r| >= 1
    ensures NoneContains(r, sep)
    decreases |s|
  {
    var i := IndexOf(s, sep);
    if i == |s| then [s]
    else [s[..i]] + Split(s[i + 1..], sep)
  }

  /** Appending a part to a non-empty join appends the separator and the part. */
  lemma {:induction false} JoinAppend(parts: seq<string>, x: string, sep: char)
    requires |parts| >= 1
    ensures Join(parts + [x], sep) == Join(parts, sep) + [sep] + x
    decreases |parts|
  {
    if |parts| == 1 {
      assert (parts + [x])[1..] == [x];
    } else {
      assert (parts + [x])[1..] == parts[1..] + [x];
      JoinAppend(parts[1..], x, sep);
    }
  }

  /** The first separator of `x + [sep] + rest` is the one right after `x` when `x` has none. */
  lemma IndexOfAfter(x: string, sep: char, rest: string)
    requires sep !in x
    ensures IndexOf(x + [sep] + rest, sep) == |x|
  {
    var s := x + [sep] + rest;
    assert s[|x|] == sep;
    assert forall k :: 0 <= k < |x| ==> s[k] == x[k];
  }

  /** Splitting undoes joining when no part contains the separator. */
  lemma {:induction false} SplitJoin(parts: seq<string>, sep: char)
    requires |parts| >= 1
    requires NoneContains(parts, sep)
    ensures Split(Join(parts, sep), sep) == parts
    decreases |parts|
  {
    var x := parts[0];
    assert sep !in x;
    if |parts| == 1 {
      assert IndexOf(x, sep) == |x|;
    } else {
      var rest := Join(parts[1..], sep);
      var s := x + [sep] + rest;
      assert s == Join(parts, sep);
      IndexOfAfter(x, sep, rest);
      assert s[..|x|] == x;
      assert s[|x| + 1..] == rest;
      assert Split(s, sep) == [x] + Split(rest, sep);
      SplitJoin(parts[1..], sep);
      assert parts == [x] + parts[1..];
    }
  }

  /** Joining is injective on non-empty lists whose parts avoid the separator. */
  lemma JoinInjective(p: seq<string>, q: seq<string>, sep: char)
    requires |p| >= 1 && |q| >= 1
    requires NoneContains(p, sep) && NoneContains(q, sep)
    requires Join(p, sep) == Join(q, sep)
    ensures p == q
  {
    SplitJoin(p, sep);
    SplitJoin(q, sep);
  }

  /** Python's `s * n`: `n` copies of `s`, and the empty string when `n <= 0`. */
  function Repeat(s: string, n: int): (r: string)
    ensures |r| == if n <= 0 then 0 else |s| * n
    ensures |s| == 1 ==> forall i :: 0 <= i < |r| ==> r[i] == s[0]
    decreases if n <= 0 then 0 else n
  {
    if n <= 0 then ""
    else
      var tail := Repeat(s, n - 1);
      assert |s| * n == |s| + |s| * (n - 1);
      s + tail
  }

  /**
   * `s * n` is `n` copies of `s`: for `n >= 1` it starts with `s`, and every
   * character past the first copy equals the one a copy's length earlier.
   */
  lemma {:induction false} RepeatCopies(s: string, n: int)
    ensures var r := Repeat(s, n);
            && (n >= 1 ==> |s| <= |r| && r[..|s|] == s)
            && forall i :: |s| <= i < |r| ==> r[i] == r[i - |s|]
    decreases if n <= 0 then 0 else n
  {
    if n >= 1 {
      var tail := Repeat(s, n - 1);
      var r := Repeat(s, n);
      assert r == s + tail;
      RepeatCopies(s, n - 1);
      forall i | |s| <= i < |r|
        ensures r[i] == r[i - |s|]
      {
        assert r[i] == tail[i - |s|];
        if i >= 2 * |s| {
          assert r[i - |s|] == tail[i - 2 * |s|];
        }
      }
    }
  }

  /** The characters Python's `str.isspace` accepts, hence the ones `rstrip()` removes. */
  predicate IsSpace(c: char)
  {
    || ('\U{9}' <= c <= '\U{D}')
    || ('\U{1C}' <= c <= '\U{20}')
    || c == '\U{85}' || c == '\U{A0}' || c == '\U{1680}'
    || ('\U{2000}' <= c <= '\U{200A}')
    || c == '\U{2028}' || c == '\U{2029}' || c == '\U{202F}' || c == '\U{205F}'
    || c == '\U{3000}'
  }

  /** Python's `s.rstrip()`: the longest prefix of `s` that does not end in whitespace. */
  function RStrip(s: string): (r: string)
    ensures |r| <= |s| && r == s[..|r|]
    ensures |r| == 0 || !IsSpace(r[|r| - 1])
    ensures forall i :: |r| <= i < |s| ==> IsSpace(s[i])
    decreases |s|
  {
    if |s| > 0 && IsSpace(s[|s| - 1]) then RStrip(s[..|s| - 1]) else s
  }
}
